=== FILE: README.md ===
# claimcart claim bot: a Dafny model

claimcart is a Discord bot (one file, `index.js`). It turns drop links into
public announcements that carry a **Claim** button. The first user who clicks
the button gets the link in a private ticket channel. Drops come from two
places:

- the `/drop lien:<url>` slash command, used in the drops channel;
- announcements that an upstream bot (VETRO by default) posts in an
  ingestion channel. For these, the bot extracts the private "cookies" link
  and builds the public details (Event, Price, Quantity, Ticket) that are
  shown next to the button.

State lives in three SQLite tables:

- `drops`: drop id to link;
- `claims`: public message id to the winning claim;
- `source_messages`: ingested announcements already handled.

This project models that core as pure functions and proves the properties it
promises:

- `Text` holds the string operations the handlers rely on: ASCII lower-casing,
  JavaScript's `\s`, `includes`, `startsWith`, `split(":")` with its inverse
  `Join`, and decimal rendering of `Date.now()`.
- `Urls` restates the three regular expressions as scans over characters:
  - the bare URL `/https?:\/\/\S+/i`;
  - the markdown capture `/\((https?:\/\/[^)]+)\)/i`;
  - the trailing-punctuation strip `/[)>.,!?]+$/`.

  Each scan takes the leftmost match.
- `Vetro` models `extractCookiesLinkFromVetro` and
  `buildDropDetailsFromVetro` over the first embed of a message.
- `Store` models the tables as maps and the prepared statements as state
  transitions. A primary-key clash is `None`. `INSERT OR REPLACE` overwrites.
- `Tickets` models the ticket channel name.
- `Handlers` models:
  - the configuration;
  - the `/drop` handler;
  - the claim-button handler, including the `claim:<dropId>` custom id and its
    reading back through `split(":")[1]`;
  - the `messageCreate` ingestion handler.

  Each handler is a function from a database and an event to the next
  database and the visible reply.
- `Trace` runs a sequence of events against one database. Over any such run
  it proves:
  - the first click on a public message wins its claim, and no later click
    does;
  - a won claim is never lost or reassigned;
  - a handled source message is never forgotten;
  - a source message yields at most one drop.

Calls into the platform are inputs of the handlers, not modelled behaviour:

- the clock (`now`);
- whether the ticket channel could be created, and its id;
- whether the public message could be edited afterwards and the success
  reply sent (index.js:347-348, inside the same `try`);
- whether the announcement of a drop was posted. For `/drop` this means the
  reply and `interaction.channel.send` succeeded (index.js:291-292). For an
  ingested drop it means the drops channel was fetched and the message was
  sent to it (index.js:381-406).

### Where the code differs from its comments

The model follows the code. In four places the code does less than its own
comments and names suggest:

- **A drop id can be reused.** `insertDrop` (index.js:44) is
  `INSERT OR REPLACE`. Ingested drops get the id `<milliseconds>_auto`, so
  two announcements ingested in the same millisecond share an id, and the
  second link replaces the first (`Handlers.SameMillisecondAutoDropsCollide`).
  The same holds for two `/drop` commands by one user in one millisecond
  (`<milliseconds>_<userId>`). An ingested id and a manual id never clash,
  since Discord user ids are strings of digits and never `auto`.
- **The link can become public.** The comments at index.js:98 and
  index.js:359 say the cookies link is never shown in public. However, the
  public details copy the Event, Price, Quantity and Ticket values verbatim.
  A cookies link placed in one of those fields is both extracted and
  published (`Vetro.CookiesLinkCanBePublic`).
  `Vetro.PublicValuesComeFromPublicFields` states the condition under which
  the promise does hold.
- **Only bots are filtered by name.** The comment at index.js:369 says only
  the allowed bot is accepted, but the test at index.js:370 applies to bot
  authors only: human authors in the ingestion channel pass.
- **`extractFirstUrl` is never called.** Its expression is repeated inline
  for fields and for the description, which is what `Urls.FirstUrl` models.

## Model

| member | source | states |
|---|---|---|
| Text.Split | index.js:302 | `split` with a one-character separator gives at least one part; no part contains the separator; joining the parts with it gives back the input |
| Text.SplitAtOnlySeparator | index.js:302 | a text with exactly one separator splits into the text before it and the text after it |
| Text.NatToString | index.js:279 | the decimal rendering of a timestamp is a non-empty string of digits |
| Text.DecimalRoundTrip | index.js:279 | the decimal rendering of a timestamp reads back to the same number, so distinct instants give distinct drop-id prefixes |
| Urls.Leftmost | index.js:92 | the position found is a match, and no earlier position matches; `None` means no position matches |
| Urls.StripTrailing | index.js:93 | the result is a prefix of the input; it does not end in `)>.,!?`; everything removed is one of those characters |
| Urls.FirstUrl | index.js:90-94 | `null` exactly when no bare `http(s)://` URL followed by a non-space occurs. Otherwise: the leftmost match, cut at the first white space, with trailing punctuation removed; it starts with its scheme and holds no white space |
| Urls.MarkdownUrl | index.js:111-112 | `null` exactly when no `(http(s)://…)` occurs. Otherwise: the capture of the leftmost one, starting with its scheme, holding at least one more character and no `)` |
| Urls.LinkIn | index.js:111-116 | `null` exactly when neither pattern matches. When a markdown link exists it is the result, even if a bare URL comes earlier; when none exists the result is the first bare URL with its trailing punctuation stripped (`Urls.FirstUrl`). Any result starts with a scheme |
| Vetro.FirstYieldingFrom | index.js:104-118 | the first field from a position on that mentions cookies in its name or value and holds a link; no earlier field does |
| Vetro.CookiesLink | index.js:100-131 | no embed gives `null`. Otherwise: the link of the first field that mentions cookies and holds one; only when no field yields, the description's link if the description mentions cookies; `null` exactly when neither yields; any result starts with a scheme |
| Vetro.TriedFieldWithoutLinkIsSkipped | index.js:109-117 | a field that mentions cookies but holds no link does not end the scan: the result equals the one for the embed without that field |
| Vetro.FieldLinkBeatsDescription | index.js:104-128 | any field that yields a link makes the result a field link (from that field or an earlier one), never the description's |
| Vetro.FirstNamedFrom | index.js:142-144 | `find`: the first field from a position on whose name equals the key, ignoring ASCII case |
| Vetro.Lookup | index.js:140-146 | `get`: present exactly when the first field with that name has a non-empty value, and then it is that value; a later field with the same name is never used |
| Vetro.PublicFieldsFrom | index.js:148-157 | the public fields for the details from a position on: in display order, each at most once, each copied from `Lookup`, each shown exactly when `Lookup` finds it |
| Vetro.BuildDropDetails | index.js:137-165 | only Event, Price, Quantity and Ticket appear, in that order, each once. Each is present exactly when `Lookup` finds it, with that value. Price and Quantity are inline. The title and thumbnail fall back to the default and to `null`; the description is fixed |
| Vetro.PublicValuesComeFromPublicFields | index.js:137-165 | a text that no field named Event, Price, Quantity or Ticket contains appears in no public value |
| Vetro.CookiesLinkCanBePublic | index.js:96-157 | a Price field `cookies http://a` is both the source of the private link `http://a` and a public field showing it |
| Store.InsertDrop | index.js:43-45 | `INSERT OR REPLACE`: afterwards the id holds the new row whatever it held before; no other row of any table changes |
| Store.TryClaim | index.js:47-49 | the insert succeeds exactly when the message has no claim row. It then adds exactly the row (message, drop, user, time) with no ticket, and changes nothing else |
| Store.SetTicketId | index.js:51-53 | `UPDATE … WHERE message_id`: only that row's ticket changes, and nothing changes when the row is missing |
| Store.MarkSourceHandled | index.js:58-60 | the insert succeeds exactly when the source is unrecorded, then records it with its time and changes nothing else |
| Tickets.KeepNameChars | index.js:188 | `replace(/[^a-z0-9-]/g, "")` keeps only `[a-z0-9-]` and never lengthens the text |
| Tickets.KeepNameCharsAppend | index.js:186-188 | the filter distributes over concatenation |
| Tickets.KeepNameCharsIdentity | index.js:188 | a text made of `[a-z0-9-]` only is left unchanged |
| Tickets.KeepNameCharsIdempotent | index.js:188 | filtering twice is filtering once |
| Tickets.KeepNameCharsMembers | index.js:188 | a character survives exactly when it is in `[a-z0-9-]` and in the input |
| Tickets.LastFour | index.js:189 | `slice(-4)`: the last four characters of the id, or all of it when shorter |
| Tickets.TicketChannelName | index.js:186-189 | the name is `claim-`, then the filtered lower-cased username, then `-`, then the last four characters of the user id; everything before the id part is in `[a-z0-9-]` |
| Handlers.LoadConfig | index.js:65-72 | channel ids are taken as set; an unset or empty source-bot name falls back to "VETRO", so the name is never empty |
| Handlers.LoadedBotFilter | index.js:363-370 | under the loaded configuration, a bot other than this one in the ingestion channel passes exactly when its name is the configured one, or "VETRO" when none is set; a human account always passes |
| Handlers.ClaimDropId | index.js:300-302 | a drop id is read exactly from custom ids starting with `claim:`. The id holds no `:`, directly follows the prefix, and is followed by the end or a `:` |
| Handlers.SplitAfterClaimPrefix | index.js:302 | the second part of splitting `claim:…` at `:` is the first part of what follows the prefix |
| Handlers.ClaimCustomIdRoundTrip | index.js:288-302 | reading back the custom id of a drop's button gives the drop id exactly when the id holds no `:` |
| Handlers.DropIdsRoundTrip | index.js:279-302 | both kinds of drop id survive the round trip through the button; manual ones need a user id without `:` |
| Handlers.DropCommand | index.js:264-293 | outside the drops channel the reply is the wrong-channel one; a link without an `http(s)://` start is refused; neither stores anything. Otherwise the drop `<now>_<user>` is stored with that link whether or not the announcement is posted. It is announced exactly when the reply and the send succeed, with the default details, an open status and the button `claim:<id>`. Claims and sources never change |
| Handlers.ClaimButton | index.js:298-353 | a non-claim button does nothing. A claim wins exactly when the message had no claim row, and a loss changes nothing. A win adds exactly the row (message, drop, user, time). The drop is missing exactly when the reply says so; the ticket is recorded exactly when the drop exists and the channel was created. A win opens a ticket exactly when the drop exists and the channel was created. That ticket carries the drop's link and the sanitised channel name, whatever happens next. The success reply is given exactly when the public message was also edited; otherwise the claimant holds the ticket but is told it failed |
| Handlers.MessageCreate | index.js:361-412 | a filtered-out or already-handled message changes nothing. Otherwise the source is recorded before extraction. A drop is stored exactly when the message is new and yields a cookies link; it is reported as announced exactly when the announcement was posted, with the public details. Claims never change |
| Handlers.SameMillisecondAutoDropsCollide | index.js:385-386 | two new announcements ingested in the same millisecond get the same drop id, and the drop ends up with the second link |
| Trace.StepKeys | index.js:305-379 | one event adds the clicked message to the claims and an accepted message to the handled sources. It removes nothing and rewrites no claim beyond filling in its ticket |
| Trace.RunGrows | index.js:43-60 | across a run the database only grows: no claim is removed or reassigned, no recorded ticket is replaced, no handled source is forgotten |
| Trace.RunKeys | index.js:305-379 | before event `i`, the claimed messages and handled sources are the initial ones plus those the earlier events added |
| Trace.ClaimedBefore | index.js:305-317 | a message has a claim before event `i` exactly when it had one at the start or an earlier event clicked its claim button |
| Trace.FirstClickWins | index.js:305-317 | a click wins exactly when its message had no claim at the start and no earlier click targeted it |
| Trace.AtMostOneWinner | index.js:305-317 | two clicks on the same message never both win |
| Trace.WonClaimPersists | index.js:311-329 | after a win, the message keeps the winner's row (drop and user) for the rest of the run |
| Trace.RecordedBefore | index.js:372-379 | a source is handled before event `i` exactly when it was at the start or an earlier accepted message had its id |
| Trace.OnlyFirstDeliveryStoresDrop | index.js:372-386 | an event stores an ingested drop exactly when it is the first accepted delivery of a message not handled at the start, and that message yields a cookies link |
| Trace.AtMostOneDropPerSource | index.js:36-40 | two deliveries of one source message never both store a drop |

## Left out

- Discord I/O is not modelled: login, command registration, replies, deferred replies, channel fetches, sending and editing messages. Only the outcomes listed above are handler inputs; every other call is assumed to succeed.
- Handlers.ClaimButton: a rejected `deferReply` (index.js:319) or `editReply` (index.js:323, 351) is not an input. Such a failure goes uncaught and ends the handler. The database is then as the model leaves it when no ticket channel comes back (after 319) or as already written (after 323 or 351); only the user's reply differs.
- Handlers.DropCommand: the wrong-channel and invalid-link replies (index.js:269, 275) are assumed to reach the user; they change nothing either way.
- `createTicket` is not modelled beyond the channel name: the category and staff-role lookups, the permission overwrites and the ticket message. Its success and the new channel id are an input of the claim handler.
- The re-rendered public embed after a claim (status "Claimé par", footer, disabled button) is left out. Only whether the edit succeeded is an input.
- Handlers.ClaimButton: the `TooLate` reply after a failed `tryClaim` cannot happen in the model. The `getClaim` check just before it runs with no await in between, so within one bot process nothing can claim the message in that gap. In the bot, that branch fires only when another process sharing the database file claimed the message in between, or when SQLite fails for another reason; the user is then told it is too late and nothing is stored. Neither a second process nor a SQLite failure is modelled.
- Handlers.DropCommand and Handlers.MessageCreate: `/drop` reads `Date.now()` twice (index.js:279-280), for the drop id and for the row's time; ingestion reads it three times (index.js:376, 385, 386), for the source row, the drop id and the drop row. The model uses one instant per event for all of them.
- Text.NatToString: renders every timestamp in plain decimal. JavaScript switches to exponent notation from 10^21 milliseconds, far beyond any real clock.
- Text.Lower: lower-cases ASCII letters only. JavaScript's `toLowerCase` also maps other scripts, which matters only for names and markers outside ASCII.
- Urls.FirstUrl: JavaScript's `\s` is modelled as its fixed character set, and strings are sequences of characters rather than UTF-16 code units.
- Interaction filtering (`isChatInputCommand`, `isButton`, the command name) is left out: each handler is modelled only for the events it acts on.
- Logging, `console.error` and the bot's top-level `try`/`catch` around ingestion are left out. After the database writes, ingestion can fail in the channel fetch or in `dropChannel.send` (index.js:406); the catch at index.js:409 swallows either, and the drop stays stored but unannounced. Both failures are folded into the one input saying whether the announcement was posted.

=== FILE: handlers.dfy ===
/**
  The decision logic of the three event handlers of index.js: the `/drop`
  slash command (index.js:264-293), the claim button (index.js:298-353) and
  the ingestion of upstream announcements (index.js:361-412), as functions
  from a database state and an event to the next state and the handler's
  visible result.

  The platform calls a handler makes are inputs: the clock (`now`, one value
  per event), whether the ticket channel was created and under which id,
  whether the public message could be edited afterwards, and, for `/drop`
  and for ingestion, whether the announcement was posted.
 */
module Handlers {
  import opened Wrappers
  import opened Text
  import opened Urls
  import opened Vetro
  import opened Store
  import opened Tickets

  // ---------------------------------------------------------------------
  // Configuration (index.js:65-72)
  // ---------------------------------------------------------------------

  /** The environment variables the handlers read; `None` is an unset one. */
  datatype Env = Env(
    dropsChannelId: Option<string>,
    webhookInChannelId: Option<string>,
    allowedSourceBotName: Option<string>)

  datatype Config = Config(
    dropsChannelId: Option<string>,
    webhookInChannelId: Option<string>,
    allowedSourceBotName: string)

  const DefaultSourceBotName := "VETRO"

  /** `CONFIG`: channel ids are taken as they are; an unset or empty bot name
      falls back to "VETRO" (`||`). */
  function LoadConfig(env: Env): (cfg: Config)
    ensures cfg.dropsChannelId == env.dropsChannelId
    ensures cfg.webhookInChannelId == env.webhookInChannelId
    ensures cfg.allowedSourceBotName != ""
    ensures env.allowedSourceBotName.Some? && env.allowedSourceBotName.value != "" ==>
      cfg.allowedSourceBotName == env.allowedSourceBotName.value
    ensures env.allowedSourceBotName.None? || env.allowedSourceBotName.value == "" ==>
      cfg.allowedSourceBotName == DefaultSourceBotName
  {
    Config(
      env.dropsChannelId,
      env.webhookInChannelId,
      if env.allowedSourceBotName.Some? && env.allowedSourceBotName.value != "" then env.allowedSourceBotName.value
      else DefaultSourceBotName)
  }

  // ---------------------------------------------------------------------
  // Drop ids and the claim button's custom id
  // ---------------------------------------------------------------------

  /** A user or bot account. */
  datatype User = User(id: string, username: string, bot: bool)

  const ClaimPrefix := "claim:"

  /** The id of a manual drop: `${Date.now()}_${userId}`. */
  function ManualDropId(now: nat, userId: string): string {
    NatToString(now) + "_" + userId
  }

  /** The id of an ingested drop: `${Date.now()}_auto`. */
  function AutoDropId(now: nat): string {
    NatToString(now) + "_auto"
  }

  /** The custom id of a drop's claim button: `claim:${dropId}`. */
  function ClaimCustomId(dropId: string): string {
    ClaimPrefix + dropId
  }

  /** `customId.startsWith("claim:")`: the button is a claim button. */
  predicate IsClaimButton(customId: string) {
    StartsWith(customId, ClaimPrefix)
  }

  /** The button handler's reading of a custom id: `null` unless it starts
      with "claim:", and otherwise `customId.split(":")[1]`, the text between
      that colon and the next one (or the end). */
  function ClaimDropId(customId: string): (r: Option<string>)
    ensures r.Some? <==> IsClaimButton(customId)
    ensures r.Some? ==> ':' !in r.value && StartsWith(customId, ClaimPrefix + r.value)
    ensures r.Some? ==>
      |customId| == |ClaimPrefix| + |r.value| || customId[|ClaimPrefix| + |r.value|] == ':'
  {
    if IsClaimButton(customId) then
      SplitAfterClaimPrefix(customId);
      var rest := customId[|ClaimPrefix|..];
      assert customId == ClaimPrefix + rest;
      ClaimPartFollowsPrefix(customId, rest, Split(customId, ':')[1]);
      Some(Split(customId, ':')[1])
    else None
  }

  /** A part that starts `rest` and ends at its end or at a colon directly
      follows the prefix in `ClaimPrefix + rest`. */
  lemma ClaimPartFollowsPrefix(customId: string, rest: string, part: string)
    requires customId == ClaimPrefix + rest
    requires |part| <= |rest| && rest[..|part|] == part && (|part| == |rest| || rest[|part|] == ':')
    ensures StartsWith(customId, ClaimPrefix + part)
    ensures |customId| == |ClaimPrefix| + |part| || customId[|ClaimPrefix| + |part|] == ':'
  {
    assert customId[..|ClaimPrefix| + |part|] == ClaimPrefix + rest[..|part|];
  }

  /** Splitting a "claim:…" custom id at its colons: the first part is
      "claim", the second is the first part of what follows the prefix. */
  lemma SplitAfterClaimPrefix(customId: string)
    requires StartsWith(customId, ClaimPrefix)
    ensures |Split(customId, ':')| >= 2
    ensures Split(customId, ':')[1] == Split(customId[|ClaimPrefix|..], ':')[0]
    ensures var rest := customId[|ClaimPrefix|..];
      var part := Split(rest, ':')[0];
      |part| <= |rest| && rest[..|part|] == part && (|part| == |rest| || rest[|part|] == ':')
  {
    assert customId[5] == ':';
    assert ':' !in customId[..5];
    var rest := customId[|ClaimPrefix|..];
    var parts := Split(rest, ':');
    if ':' in rest {
      var i := IndexOf(rest, ':');
      assert parts[0] == rest[..i];
    }
  }

  /** The custom id round trip: reading back the button of a drop gives the
      drop id exactly when the drop id holds no colon. */
  lemma ClaimCustomIdRoundTrip(dropId: string)
    ensures ClaimDropId(ClaimCustomId(dropId)) == Some(dropId) <==> ':' !in dropId
  {
    assert StartsWith(ClaimCustomId(dropId), ClaimPrefix);
    assert ClaimCustomId(dropId)[|ClaimPrefix|..] == dropId;
  }

  /** Drop ids hold no colon as long as the user id does not (platform user
      ids are decimal numbers), so the buttons of both kinds of drop carry
      their drop id back to the claim handler. */
  lemma DropIdsRoundTrip(now: nat, userId: string)
    ensures ClaimDropId(ClaimCustomId(AutoDropId(now))) == Some(AutoDropId(now))
    ensures ':' !in userId ==> ClaimDropId(ClaimCustomId(ManualDropId(now, userId))) == Some(ManualDropId(now, userId))
  {
    var digits := NatToString(now);
    assert forall i :: 0 <= i < |digits| ==> IsDigit(digits[i]);
    assert ':' !in digits;
    assert ':' !in AutoDropId(now);
    ClaimCustomIdRoundTrip(AutoDropId(now));
    if ':' !in userId {
      assert ':' !in ManualDropId(now, userId);
      ClaimCustomIdRoundTrip(ManualDropId(now, userId));
    }
  }

  // ---------------------------------------------------------------------
  // Results
  // ---------------------------------------------------------------------

  const StatusOpen := "🟢 Disponible"

  /** A public drop message: the embed's title, description, thumbnail and
      fields come from `details`, preceded by a "Statut" field holding
      `status`; the one button carries `customId`. */
  datatype Announcement = Announcement(details: DropDetails, status: string, customId: string)

  /** What a handler does that the caller or the channel sees. */
  datatype Reply =
    | Ignored                                   // the handler returns without a word
    | WrongChannel                              // "Utilise /drop dans le salon drops."
    | InvalidLink                               // "Lien invalide (http/https)."
    | DropStored(dropId: string)                // stored, announcement not posted
    | DropPosted(dropId: string, post: Announcement)
    | TooLate                                   // "Trop tard : déjà claim."
    | DropNotFound                              // "Drop introuvable."
    // the ticket channel exists and holds the link; `confirmed` says whether
    // the public message was then edited and "Ticket créé" replied, and
    // otherwise the claimant is told "Erreur création ticket" all the same
    | TicketOpened(ticketId: string, channelName: string, link: string, confirmed: bool)
    | TicketFailed                              // "Erreur création ticket", no ticket
    | AlreadyHandled                            // source message seen before
    | NoCookiesLink                             // source recorded, nothing extracted
    | AutoDropStored(dropId: string)            // stored, announcement not posted
    | AutoDropPosted(dropId: string, post: Announcement)

  /** The replies of a claim attempt that won the claim row. */
  predicate IsWin(r: Reply) {
    r.DropNotFound? || r.TicketOpened? || r.TicketFailed?
  }

  /** The replies of a `/drop` command that stored a drop. */
  predicate StoresManualDrop(r: Reply) {
    r.DropStored? || r.DropPosted?
  }

  /** The replies of an ingestion that stored a drop. */
  predicate StoresAutoDrop(r: Reply) {
    r.AutoDropStored? || r.AutoDropPosted?
  }

  datatype Outcome = Outcome(db: Db, reply: Reply)

  // ---------------------------------------------------------------------
  // /drop (index.js:264-293)
  // ---------------------------------------------------------------------

  /** `/drop lien:<link>`: outside the drops channel, or with a link that does
      not start with `http://` or `https://` (any case), nothing is stored;
      otherwise the drop `<now>_<userId>` is stored (replacing any row with
      that id) before anything is said. `announced` says whether the reply
      and the send of the announcement with the default title and an open
      status both succeed; when either fails the drop stays stored, with no
      public message and so no button to claim it. */
  function DropCommand(db: Db, cfg: Config, channelId: string, link: string, user: User, now: nat, announced: bool): (o: Outcome)
    ensures o.reply.WrongChannel? <==> cfg.dropsChannelId != Some(channelId)
    ensures o.reply.InvalidLink? <==> cfg.dropsChannelId == Some(channelId) && !StartsWithScheme(link)
    ensures StoresManualDrop(o.reply) <==> cfg.dropsChannelId == Some(channelId) && StartsWithScheme(link)
    ensures o.reply.DropPosted? <==> cfg.dropsChannelId == Some(channelId) && StartsWithScheme(link) && announced
    ensures !StoresManualDrop(o.reply) ==> o.db == db
    ensures StoresManualDrop(o.reply) ==>
      var id := ManualDropId(now, user.id);
      && o.reply.dropId == id
      && id in o.db.drops && o.db.drops[id] == Drop(link, now)
      && AgreeExcept(db.drops, o.db.drops, id)
      && o.db.claims == db.claims && o.db.sources == db.sources
    ensures o.reply.DropPosted? ==>
      o.reply.post == Announcement(DropDetails(DefaultTitle, DetailsDescription, None, []), StatusOpen, ClaimCustomId(o.reply.dropId))
  {
    if cfg.dropsChannelId != Some(channelId) then Outcome(db, WrongChannel)
    else if !StartsWithScheme(link) then Outcome(db, InvalidLink)
    else
      var dropId := ManualDropId(now, user.id);
      var stored := InsertDrop(db, dropId, link, now);
      if !announced then Outcome(stored, DropStored(dropId))
      else
        var details := DropDetails(DefaultTitle, DetailsDescription, None, []);
        Outcome(stored, DropPosted(dropId, Announcement(details, StatusOpen, ClaimCustomId(dropId))))
  }

  // ---------------------------------------------------------------------
  // The claim button (index.js:298-353)
  // ---------------------------------------------------------------------

  /** A click on a button with `customId` on the public message `messageId`.
      `ticket` is what `createTicket` gives: the new channel's id, or `None`
      when it throws (no tickets category, no staff role, a refused call);
      `createTicket` also sends the link into the new channel, before the
      public message is touched. `edited` says whether re-rendering and
      editing the public message afterwards, and then sending the success
      reply, succeed. */
  function ClaimButton(
    db: Db, customId: string, messageId: string, user: User, now: int,
    ticket: Option<string>, edited: bool): (o: Outcome)
    // not a claim button: nothing happens
    ensures ClaimDropId(customId).None? ==> o == Outcome(db, Ignored)
    // the first attempt on a message wins, every later one loses and changes nothing
    ensures ClaimDropId(customId).Some? ==> (IsWin(o.reply) <==> messageId !in db.claims)
    ensures !IsWin(o.reply) ==> o.db == db
    ensures o.reply.TooLate? <==> ClaimDropId(customId).Some? && messageId in db.claims
    // a win adds exactly the row (message, drop, user), never removed afterwards
    ensures IsWin(o.reply) ==>
      var dropId := ClaimDropId(customId).value;
      && o.db.claims.Keys == db.claims.Keys + {messageId}
      && AgreeExcept(db.claims, o.db.claims, messageId)
      && o.db.claims[messageId].dropId == dropId
      && o.db.claims[messageId].userId == user.id
      && o.db.claims[messageId].claimedAt == now
      && o.db.drops == db.drops && o.db.sources == db.sources
    // the drop lookup and the ticket come after the win and never undo it
    ensures IsWin(o.reply) ==>
      (o.reply.DropNotFound? <==> ClaimDropId(customId).value !in db.drops)
    ensures IsWin(o.reply) ==>
      (o.db.claims[messageId].ticketChannelId ==
         if ClaimDropId(customId).value in db.drops then ticket else None)
    // a win opens a ticket with the link exactly when the drop exists and the
    // ticket channel was created; only the success reply waits for the edit
    ensures IsWin(o.reply) ==>
      (o.reply.TicketOpened? <==> ClaimDropId(customId).value in db.drops && ticket.Some?)
    ensures o.reply.TicketOpened? ==> (o.reply.confirmed <==> edited)
    ensures o.reply.TicketOpened? ==>
      && ticket == Some(o.reply.ticketId)
      && o.reply.link == db.drops[ClaimDropId(customId).value].link
      && o.reply.channelName == TicketChannelName(user.username, user.id)
  {
    match ClaimDropId(customId)
    case None => Outcome(db, Ignored)
    case Some(dropId) =>
      if messageId in db.claims then Outcome(db, TooLate)
      else
        match TryClaim(db, messageId, dropId, user.id, now)
        case None => Outcome(db, TooLate)
        case Some(claimed) =>
          if dropId !in claimed.drops then Outcome(claimed, DropNotFound)
          else
            var link := claimed.drops[dropId].link;
            match ticket
            case None => Outcome(claimed, TicketFailed)
            case Some(ticketId) =>
              var recorded := SetTicketId(claimed, messageId, ticketId);
              Outcome(recorded, TicketOpened(ticketId, TicketChannelName(user.username, user.id), link, edited))
  }

  // ---------------------------------------------------------------------
  // Ingestion of upstream announcements (index.js:361-412)
  // ---------------------------------------------------------------------

  /** A message posted in a channel the bot can read. */
  datatype Message = Message(id: string, channelId: string, author: User, embeds: seq<Embed>)

  /** The message passes the handler's filters: an ingestion channel is
      configured and the message was posted there, not by this bot, and not by
      another bot unless that bot has the allowed name. Messages of human
      accounts pass. */
  predicate Accepted(cfg: Config, selfId: string, msg: Message) {
    && cfg.webhookInChannelId.Some?
    && cfg.webhookInChannelId.value != ""
    && msg.channelId == cfg.webhookInChannelId.value
    && msg.author.id != selfId
    && !(msg.author.bot && msg.author.username != cfg.allowedSourceBotName)
  }

  /** With the configuration loaded from `env`, a bot other than this one
      posting in the ingestion channel is accepted exactly when its name is
      the configured one, and "VETRO" when the variable is unset or empty;
      a human account there is always accepted. */
  lemma LoadedBotFilter(env: Env, selfId: string, msg: Message)
    requires env.webhookInChannelId == Some(msg.channelId) && msg.channelId != ""
    requires msg.author.id != selfId
    ensures !msg.author.bot ==> Accepted(LoadConfig(env), selfId, msg)
    ensures msg.author.bot && (env.allowedSourceBotName.None? || env.allowedSourceBotName.value == "") ==>
      (Accepted(LoadConfig(env), selfId, msg) <==> msg.author.username == DefaultSourceBotName)
    ensures msg.author.bot && env.allowedSourceBotName.Some? && env.allowedSourceBotName.value != "" ==>
      (Accepted(LoadConfig(env), selfId, msg) <==> msg.author.username == env.allowedSourceBotName.value)
  {
  }

  /** `messageCreate`: a message the filters reject changes nothing; an
      accepted message already recorded changes nothing; otherwise its id is
      recorded first, and only then is the cookies link extracted; with a link,
      the drop `<now>_auto` is stored (replacing any row with that id) and,
      when the announcement is posted, it carries the public details.
      Claims are never touched. */
  function MessageCreate(db: Db, cfg: Config, selfId: string, msg: Message, now: nat, announced: bool): (o: Outcome)
    ensures !Accepted(cfg, selfId, msg) ==> o == Outcome(db, Ignored)
    ensures Accepted(cfg, selfId, msg) && msg.id in db.sources ==> o == Outcome(db, AlreadyHandled)
    ensures Accepted(cfg, selfId, msg) && msg.id !in db.sources ==>
      && o.db.sources.Keys == db.sources.Keys + {msg.id}
      && AgreeExcept(db.sources, o.db.sources, msg.id)
    ensures o.db.claims == db.claims
    ensures StoresAutoDrop(o.reply) <==>
      Accepted(cfg, selfId, msg) && msg.id !in db.sources && CookiesLink(msg.embeds).Some?
    ensures !StoresAutoDrop(o.reply) ==> o.db.drops == db.drops
    ensures StoresAutoDrop(o.reply) ==>
      var id := AutoDropId(now);
      && o.reply.dropId == id
      && id in o.db.drops && o.db.drops[id] == Drop(CookiesLink(msg.embeds).value, now)
      && AgreeExcept(db.drops, o.db.drops, id)
      && (o.reply.AutoDropPosted? <==> announced)
    ensures o.reply.AutoDropPosted? ==>
      o.reply.post == Announcement(BuildDropDetails(msg.embeds), StatusOpen, ClaimCustomId(o.reply.dropId))
  {
    if !Accepted(cfg, selfId, msg) then Outcome(db, Ignored)
    else
      match MarkSourceHandled(db, msg.id, now)
      case None => Outcome(db, AlreadyHandled)
      case Some(marked) =>
        match CookiesLink(msg.embeds)
        case None => Outcome(marked, NoCookiesLink)
        case Some(link) =>
          var dropId := AutoDropId(now);
          var stored := InsertDrop(marked, dropId, link, now);
          if !announced then Outcome(stored, AutoDropStored(dropId))
          else
            var post := Announcement(BuildDropDetails(msg.embeds), StatusOpen, ClaimCustomId(dropId));
            Outcome(stored, AutoDropPosted(dropId, post))
  }

  /** Drop ids carry only the millisecond: two new announcements ingested
      in the same millisecond get the same drop id, and the second link
      replaces the first, so the first public message's claim button hands
      out the second drop's link. */
  lemma SameMillisecondAutoDropsCollide(
    db: Db, cfg: Config, selfId: string, first: Message, second: Message, now: nat, posted1: bool, posted2: bool)
    requires Accepted(cfg, selfId, first) && Accepted(cfg, selfId, second)
    requires first.id != second.id && first.id !in db.sources && second.id !in db.sources
    requires CookiesLink(first.embeds).Some? && CookiesLink(second.embeds).Some?
    ensures var o1 := MessageCreate(db, cfg, selfId, first, now, posted1);
      var o2 := MessageCreate(o1.db, cfg, selfId, second, now, posted2);
      && StoresAutoDrop(o1.reply) && StoresAutoDrop(o2.reply)
      && o1.reply.dropId == o2.reply.dropId
      && o2.db.drops[o1.reply.dropId].link == CookiesLink(second.embeds).value
  {
    var o1 := MessageCreate(db, cfg, selfId, first, now, posted1);
    assert second.id !in o1.db.sources;
  }
}

=== FILE: store.dfy ===
/**
  The three SQLite tables (index.js:21-41) as maps from primary key to row, and
  the prepared statements (index.js:43-60) as functions from one database state
  to the next. A statement that SQLite rejects for a primary-key clash returns
  `None`; better-sqlite3 throws there, and every caller catches it.
 */
module Store {
  import opened Wrappers

  /** A row of `drops`, keyed by `drop_id`. */
  datatype Drop = Drop(link: string, createdAt: int)

  /** A row of `claims`, keyed by the public message id; `ticketChannelId`
      is the nullable `ticket_channel_id` column. */
  datatype Claim = Claim(dropId: string, userId: string, ticketChannelId: Option<string>, claimedAt: int)

  /** The database: `sources` maps `source_message_id` to `created_at`. */
  datatype Db = Db(drops: map<string, Drop>, claims: map<string, Claim>, sources: map<string, int>)

  /** `a` and `b` hold the same rows under every key except possibly `key`. */
  ghost predicate AgreeExcept<K(!new), V>(a: map<K, V>, b: map<K, V>, key: K) {
    forall k :: k != key ==> (k in a <==> k in b) && (k in a ==> a[k] == b[k])
  }

  /** `insertDrop`, an `INSERT OR REPLACE`: afterwards `id` holds the new row
      whatever it held before, and no other row of any table changes. */
  function InsertDrop(db: Db, id: string, link: string, now: int): (db': Db)
    ensures id in db'.drops && db'.drops[id] == Drop(link, now)
    ensures AgreeExcept(db.drops, db'.drops, id)
    ensures db'.claims == db.claims && db'.sources == db.sources
  {
    db.(drops := db.drops[id := Drop(link, now)])
  }

  /** `tryClaim`, a plain `INSERT`: it succeeds exactly when the message has
      no claim yet, and then adds the one row (message, drop, user) with no
      ticket and changes nothing else. */
  function TryClaim(db: Db, messageId: string, dropId: string, userId: string, now: int): (r: Option<Db>)
    ensures r.Some? <==> messageId !in db.claims
    ensures r.Some? ==>
      && messageId in r.value.claims
      && r.value.claims[messageId] == Claim(dropId, userId, None, now)
      && r.value.claims.Keys == db.claims.Keys + {messageId}
      && AgreeExcept(db.claims, r.value.claims, messageId)
      && r.value.drops == db.drops && r.value.sources == db.sources
  {
    if messageId in db.claims then None
    else Some(db.(claims := db.claims[messageId := Claim(dropId, userId, None, now)]))
  }

  /** `setTicketId`, an `UPDATE … WHERE message_id = ?`: fills in the ticket
      of that one row when it exists, and otherwise matches no row. */
  function SetTicketId(db: Db, messageId: string, ticketId: string): (db': Db)
    ensures db'.claims.Keys == db.claims.Keys
    ensures messageId in db.claims ==>
      db'.claims[messageId] == db.claims[messageId].(ticketChannelId := Some(ticketId))
    ensures messageId !in db.claims ==> db' == db
    ensures AgreeExcept(db.claims, db'.claims, messageId)
    ensures db'.drops == db.drops && db'.sources == db.sources
  {
    if messageId in db.claims then
      db.(claims := db.claims[messageId := db.claims[messageId].(ticketChannelId := Some(ticketId))])
    else db
  }

  /** `markSourceHandled`, a plain `INSERT`: it succeeds exactly when the
      source message is not recorded yet, and then records it and changes
      nothing else. */
  function MarkSourceHandled(db: Db, sourceId: string, now: int): (r: Option<Db>)
    ensures r.Some? <==> sourceId !in db.sources
    ensures r.Some? ==>
      && r.value.sources.Keys == db.sources.Keys + {sourceId}
      && r.value.sources[sourceId] == now
      && AgreeExcept(db.sources, r.value.sources, sourceId)
      && r.value.drops == db.drops && r.value.claims == db.claims
  {
    if sourceId in db.sources then None
    else Some(db.(sources := db.sources[sourceId := now]))
  }

  /** A claim row keeps its message, drop, user and time: at most its ticket
      changes, and only from empty. */
  ghost predicate ClaimKept(before: Claim, after: Claim) {
    && after.dropId == before.dropId
    && after.userId == before.userId
    && after.claimedAt == before.claimedAt
    && (before.ticketChannelId.Some? ==> after.ticketChannelId == before.ticketChannelId)
  }

  /** `b` is `a` with possibly more rows: no claim removed, none rewritten
      beyond filling in an empty ticket, no handled source forgotten. */
  ghost predicate Grows(a: Db, b: Db) {
    && a.claims.Keys <= b.claims.Keys
    && (forall m :: m in a.claims ==> ClaimKept(a.claims[m], b.claims[m]))
    && a.sources.Keys <= b.sources.Keys
  }

  lemma GrowsTransitive(a: Db, b: Db, c: Db)
    requires Grows(a, b) && Grows(b, c)
    ensures Grows(a, c)
  {
  }
}

=== FILE: text.dfy ===
/**
  Character and string helpers shared by the parsers and the handlers: ASCII
  lower-casing, the fixed white-space class of JavaScript regular expressions,
  substring search, `String.prototype.split` on one character, and the decimal
  rendering of a non-negative number.
 */
module Text {

  /** ASCII lower-casing of one character; every other character is kept. */
  function LowerChar(c: char): char {
    if 'A' <= c <= 'Z' then (c as int + 32) as char else c
  }

  /** `toLowerCase`, restricted to the ASCII letters. */
  function Lower(s: string): (r: string)
    ensures |r| == |s|
    ensures forall i :: 0 <= i < |s| ==> r[i] == LowerChar(s[i])
  {
    seq(|s|, i requires 0 <= i < |s| => LowerChar(s[i]))
  }

  /** Lower-casing works character by character, so it distributes over
      concatenation. */
  lemma LowerAppend(a: string, b: string)
    ensures Lower(a + b) == Lower(a) + Lower(b)
  {
  }

  /** A string without upper-case ASCII letters is its own lower case. */
  lemma LowerIdentity(s: string)
    requires forall i :: 0 <= i < |s| ==> !('A' <= s[i] <= 'Z')
    ensures Lower(s) == s
  {
  }

  /** The characters matched by `\s` in a JavaScript regular expression. */
  predicate IsSpace(c: char) {
    || c == ' '
    || '\t' <= c <= '\r'
    || c == '\U{00A0}' || c == '\U{1680}'
    || '\U{2000}' <= c <= '\U{200A}'
    || c == '\U{2028}' || c == '\U{2029}' || c == '\U{202F}'
    || c == '\U{205F}' || c == '\U{3000}' || c == '\U{FEFF}'
  }

  predicate IsDigit(c: char) {
    '0' <= c <= '9'
  }

  /** `p` occurs in `s` starting at position `i`. */
  predicate OccursAt(s: string, p: string, i: nat) {
    i + |p| <= |s| && s[i..i + |p|] == p
  }

  /** `s.includes(p)`. */
  predicate Contains(s: string, p: string) {
    exists i: nat | i <= |s| :: OccursAt(s, p, i)
  }

  /** `s.startsWith(p)`. */
  predicate StartsWith(s: string, p: string) {
    OccursAt(s, p, 0)
  }

  /** Position of the first occurrence of `c` in `s`. */
  function IndexOf(s: string, c: char): (i: nat)
    requires c in s
    ensures i < |s| && s[i] == c
    ensures c !in s[..i]
  {
    if s[0] == c then 0 else 1 + IndexOf(s[1..], c)
  }

  /** The inverse of `Split`: the parts glued back together with `sep` between them. */
  function Join(parts: seq<string>, sep: char): string
    requires |parts| >= 1
  {
    if |parts| == 1 then parts[0] else parts[0] + [sep] + Join(parts[1..], sep)
  }

  /** `s.split(sep)` for a one-character separator. */
  function Split(s: string, sep: char): (parts: seq<string>)
    ensures |parts| >= 1
    ensures forall k :: 0 <= k < |parts| ==> sep !in parts[k]
    ensures Join(parts, sep) == s
    decreases |s|
  {
    if sep !in s then [s]
    else
      var i := IndexOf(s, sep);
      var rest := Split(s[i + 1..], sep);
      var parts := [s[..i]] + rest;
      assert parts[1..] == rest;
      assert s == s[..i] + [sep] + s[i + 1..];
      parts
  }

  /** The decimal digit of `d`. */
  function DigitChar(d: nat): (c: char)
    requires d < 10
  {
    ('0' as int + d) as char
  }

  /** `String(n)` for a non-negative integer below 10^21 (JavaScript's limit for
      plain decimal notation; the model renders every `nat` this way). */
  function NatToString(n: nat): (s: string)
    ensures |s| >= 1
    ensures forall i :: 0 <= i < |s| ==> IsDigit(s[i])
  {
    if n < 10 then [DigitChar(n)] else NatToString(n / 10) + [DigitChar(n % 10)]
  }

  /** The number a string of decimal digits denotes. */
  function DecimalValue(s: string): nat
    requires forall i :: 0 <= i < |s| ==> IsDigit(s[i])
  {
    if s == [] then 0
    else
      assert IsDigit(s[|s| - 1]);
      10 * DecimalValue(s[..|s| - 1]) + (s[|s| - 1] as int - '0' as int)
  }

  /** Decimal rendering is injective: reading the digits back gives the number. */
  lemma {:induction false} DecimalRoundTrip(n: nat)
    ensures DecimalValue(NatToString(n)) == n
  {
    var s := NatToString(n);
    if n >= 10 {
      DecimalRoundTrip(n / 10);
      assert s[..|s| - 1] == NatToString(n / 10);
    }
  }

  /** A string without `sep` splits into itself alone; one occurrence of `sep`
      splits it into the part before and the part after. */
  lemma SplitAtOnlySeparator(a: string, b: string, sep: char)
    requires sep !in a && sep !in b
    ensures Split(a + [sep] + b, sep) == [a, b]
  {
    var s := a + [sep] + b;
    assert s[|a|] == sep;
    assert s[..|a|] == a;
    assert s[|a| + 1..] == b;
  }
}

=== FILE: tickets.dfy ===
/**
  The name of the private ticket channel a winning claimant gets
  (index.js:186-189). Creating the channel, its permission overwrites and the
  message sent into it are calls into the chat platform and are not modelled;
  the platform's answer is an input of the claim handler instead.
 */
module Tickets {
  import opened Text

  /** `CONFIG.ticketPrefix`. */
  const TicketPrefix := "claim"

  /** The characters `[a-z0-9-]` a channel name keeps. */
  predicate IsNameChar(c: char) {
    'a' <= c <= 'z' || '0' <= c <= '9' || c == '-'
  }

  /** `.replace(/[^a-z0-9-]/g, "")`: deletes every other character. */
  function KeepNameChars(s: string): (r: string)
    ensures |r| <= |s|
    ensures forall i :: 0 <= i < |r| ==> IsNameChar(r[i])
  {
    if s == [] then []
    else (if IsNameChar(s[0]) then [s[0]] else []) + KeepNameChars(s[1..])
  }

  /** Filtering distributes over concatenation. */
  lemma {:induction false} KeepNameCharsAppend(a: string, b: string)
    ensures KeepNameChars(a + b) == KeepNameChars(a) + KeepNameChars(b)
    decreases |a|
  {
    if a != [] {
      var head := if IsNameChar(a[0]) then [a[0]] else [];
      assert (a + b)[0] == a[0];
      assert (a + b)[1..] == a[1..] + b;
      assert KeepNameChars(a + b) == head + KeepNameChars(a[1..] + b);
      KeepNameCharsAppend(a[1..], b);
      assert KeepNameChars(a) == head + KeepNameChars(a[1..]);
      assert head + (KeepNameChars(a[1..]) + KeepNameChars(b)) == (head + KeepNameChars(a[1..])) + KeepNameChars(b);
    } else {
      assert a + b == b;
    }
  }

  /** A string made of name characters only is left as it is. */
  lemma {:induction false} KeepNameCharsIdentity(s: string)
    requires forall i :: 0 <= i < |s| ==> IsNameChar(s[i])
    ensures KeepNameChars(s) == s
    decreases |s|
  {
    if s != [] {
      KeepNameCharsIdentity(s[1..]);
    }
  }

  /** The character filter is idempotent. */
  lemma KeepNameCharsIdempotent(s: string)
    ensures KeepNameChars(KeepNameChars(s)) == KeepNameChars(s)
  {
    KeepNameCharsIdentity(KeepNameChars(s));
  }

  /** A character survives the filter exactly when it is a name character
      that occurs in the input. */
  lemma {:induction false} KeepNameCharsMembers(s: string, c: char)
    ensures c in KeepNameChars(s) <==> c in s && IsNameChar(c)
    decreases |s|
  {
    if s != [] {
      KeepNameCharsMembers(s[1..], c);
      assert s == [s[0]] + s[1..];
    }
  }

  /** `id.slice(-4)`: the last four characters, or the whole id when shorter. */
  function LastFour(id: string): (r: string)
    ensures |r| == if |id| < 4 then |id| else 4
    ensures r == id[|id| - |r|..]
  {
    if |id| < 4 then id else id[|id| - 4..]
  }

  /** The ticket channel name: "claim-", the ASCII-lower-cased username with
      every character outside `[a-z0-9-]` deleted, "-", and the last four
      characters of the user id. Everything before the id part is made of
      name characters. */
  function TicketChannelName(username: string, userId: string): (name: string)
    ensures name == TicketPrefix + "-" + KeepNameChars(Lower(username)) + "-" + LastFour(userId)
    ensures forall i :: 0 <= i < |name| - |LastFour(userId)| ==> IsNameChar(name[i])
  {
    var safeName := KeepNameChars(Lower(TicketPrefix + "-" + username));
    SafeNameKeepsPrefix(username);
    NameCharsThenDash(safeName, LastFour(userId));
    safeName + "-" + LastFour(userId)
  }

  /** Sanitising "claim-" + username keeps "claim-" and sanitises the
      username. */
  lemma SafeNameKeepsPrefix(username: string)
    ensures KeepNameChars(Lower(TicketPrefix + "-" + username)) == TicketPrefix + "-" + KeepNameChars(Lower(username))
  {
    LowerAppend(TicketPrefix + "-", username);
    LowerIdentity(TicketPrefix + "-");
    KeepNameCharsAppend(TicketPrefix + "-", Lower(username));
    KeepNameCharsIdentity(TicketPrefix + "-");
  }

  lemma NameCharsThenDash(a: string, b: string)
    requires forall i :: 0 <= i < |a| ==> IsNameChar(a[i])
    ensures forall i :: 0 <= i < |a + "-" + b| - |b| ==> IsNameChar((a + "-" + b)[i])
  {
  }
}

=== FILE: trace.dfy ===
/**
  The bot as a whole: a sequence of events handled one after another against
  one database, each event as one step. This is an abstraction: the claim
  handler awaits the platform between `tryClaim` and `getDrop`
  (`deferReply`, index.js:319) and between `getDrop` and `setTicketId`
  (`createTicket`, index.js:328), so other events can run in those gaps.
  Folding the handler into one step keeps what the lemmas below speak of:
  the `getClaim` check and the `tryClaim` insert run with no await between
  them, so the winner of a claim row is decided atomically, and afterwards
  only the winner's handler writes that row (its ticket id). What the step
  does not capture is that the drop row read after the win, and so the link
  handed out, may already reflect `/drop` commands or ingestions that arrive
  during those awaits.
 */
module Trace {
  import opened Wrappers
  import opened Store
  import opened Vetro
  import opened Handlers

  datatype Event =
    | DropCommandEvent(channelId: string, link: string, user: User, now: nat, announced: bool)
    | ClaimClick(customId: string, messageId: string, user: User, now: nat, ticket: Option<string>, edited: bool)
    | MessageCreated(msg: Message, now: nat, announced: bool)

  /** Dispatches one event to its handler. */
  function Step(db: Db, cfg: Config, selfId: string, ev: Event): Outcome {
    match ev
    case DropCommandEvent(channelId, link, user, now, announced) => DropCommand(db, cfg, channelId, link, user, now, announced)
    case ClaimClick(customId, messageId, user, now, ticket, edited) =>
      ClaimButton(db, customId, messageId, user, now, ticket, edited)
    case MessageCreated(msg, now, announced) => MessageCreate(db, cfg, selfId, msg, now, announced)
  }

  /** The event is a click on a claim button of public message `m`. */
  predicate ClaimsOn(ev: Event, m: string) {
    ev.ClaimClick? && ev.messageId == m && IsClaimButton(ev.customId)
  }

  /** The event is a message with id `s` that passes the ingestion filters. */
  predicate RecordsSource(cfg: Config, selfId: string, ev: Event, s: string) {
    ev.MessageCreated? && ev.msg.id == s && Accepted(cfg, selfId, ev.msg)
  }

  /** The database before event `i` of a run of `evs` from `db`: each event
      is handled against the database its predecessors left. */
  function DbAt(db: Db, cfg: Config, selfId: string, evs: seq<Event>, i: nat): Db
    requires i <= |evs|
  {
    if i == 0 then db else Step(DbAt(db, cfg, selfId, evs, i - 1), cfg, selfId, evs[i - 1]).db
  }

  /** What the handler of event `i` answers. */
  function ReplyAt(db: Db, cfg: Config, selfId: string, evs: seq<Event>, i: nat): Reply
    requires i < |evs|
  {
    Step(DbAt(db, cfg, selfId, evs, i), cfg, selfId, evs[i]).reply
  }

  /** The messages an event may claim: the one whose claim button it clicks. */
  function ClaimedMessages(ev: Event): set<string> {
    if ev.ClaimClick? && IsClaimButton(ev.customId) then {ev.messageId} else {}
  }

  /** The sources an event records: its message, when the filters accept it. */
  function RecordedSources(cfg: Config, selfId: string, ev: Event): set<string> {
    if ev.MessageCreated? && Accepted(cfg, selfId, ev.msg) then {ev.msg.id} else {}
  }

  /** One step adds the clicked message to the claimed ones, and the message
      of an accepted announcement to the handled sources; it removes nothing. */
  lemma StepKeys(db: Db, cfg: Config, selfId: string, ev: Event)
    ensures var db' := Step(db, cfg, selfId, ev).db;
      && db'.claims.Keys == db.claims.Keys + ClaimedMessages(ev)
      && db'.sources.Keys == db.sources.Keys + RecordedSources(cfg, selfId, ev)
      && Grows(db, db')
  {
    var o := Step(db, cfg, selfId, ev);
    match ev
    case DropCommandEvent(channelId, link, user, now, announced) =>
      assert o.db.claims == db.claims && o.db.sources == db.sources;
    case ClaimClick(customId, messageId, user, now, ticket, edited) =>
      assert o.db.sources == db.sources;
      if IsWin(o.reply) {
        assert messageId !in db.claims;
        forall m | m in db.claims
          ensures ClaimKept(db.claims[m], o.db.claims[m])
        {
          assert o.db.claims[m] == db.claims[m];
        }
      }
    case MessageCreated(msg, now, announced) =>
      assert o.db.claims == db.claims;
  }

  /** Across a run, the database only grows: a won claim is never removed,
      never handed to another user or drop, and a recorded ticket is never
      replaced; a handled source is never forgotten. */
  lemma {:induction false} RunGrows(db: Db, cfg: Config, selfId: string, evs: seq<Event>, i: nat, j: nat)
    requires i <= j <= |evs|
    ensures Grows(DbAt(db, cfg, selfId, evs, i), DbAt(db, cfg, selfId, evs, j))
    decreases j - i
  {
    if i < j {
      RunGrows(db, cfg, selfId, evs, i, j - 1);
      var b := DbAt(db, cfg, selfId, evs, j - 1);
      StepKeys(b, cfg, selfId, evs[j - 1]);
      GrowsTransitive(DbAt(db, cfg, selfId, evs, i), b, DbAt(db, cfg, selfId, evs, j));
    }
  }

  /** The messages claimed by the first `i` events. */
  function ClaimedIn(evs: seq<Event>, i: nat): set<string>
    requires i <= |evs|
  {
    if i == 0 then {} else ClaimedIn(evs, i - 1) + ClaimedMessages(evs[i - 1])
  }

  /** The sources recorded by the first `i` events. */
  function RecordedIn(cfg: Config, selfId: string, evs: seq<Event>, i: nat): set<string>
    requires i <= |evs|
  {
    if i == 0 then {} else RecordedIn(cfg, selfId, evs, i - 1) + RecordedSources(cfg, selfId, evs[i - 1])
  }

  /** A message is among those claimed by the first `i` events exactly when
      one of them clicked its claim button. */
  lemma {:induction false} ClaimedInMembers(evs: seq<Event>, m: string, i: nat)
    requires i <= |evs|
    ensures m in ClaimedIn(evs, i) <==> exists j :: 0 <= j < i && ClaimsOn(evs[j], m)
  {
    if i > 0 {
      ClaimedInMembers(evs, m, i - 1);
      assert m in ClaimedMessages(evs[i - 1]) <==> ClaimsOn(evs[i - 1], m);
      if exists j :: 0 <= j < i && ClaimsOn(evs[j], m) {
        var j :| 0 <= j < i && ClaimsOn(evs[j], m);
        if j < i - 1 {
          assert exists j' :: 0 <= j' < i - 1 && ClaimsOn(evs[j'], m);
        }
      }
    }
  }

  /** A source is among those recorded by the first `i` events exactly when
      one of them is an accepted message with that id. */
  lemma {:induction false} RecordedInMembers(cfg: Config, selfId: string, evs: seq<Event>, s: string, i: nat)
    requires i <= |evs|
    ensures s in RecordedIn(cfg, selfId, evs, i) <==> exists j :: 0 <= j < i && RecordsSource(cfg, selfId, evs[j], s)
  {
    if i > 0 {
      RecordedInMembers(cfg, selfId, evs, s, i - 1);
      assert s in RecordedSources(cfg, selfId, evs[i - 1]) <==> RecordsSource(cfg, selfId, evs[i - 1], s);
      if exists j :: 0 <= j < i && RecordsSource(cfg, selfId, evs[j], s) {
        var j :| 0 <= j < i && RecordsSource(cfg, selfId, evs[j], s);
        if j < i - 1 {
          assert exists j' :: 0 <= j' < i - 1 && RecordsSource(cfg, selfId, evs[j'], s);
        }
      }
    }
  }

  /** Before event `i`, the claimed messages are those claimed at the start
      and those whose claim buttons the earlier events clicked; the handled
      sources are those handled at the start and the earlier accepted
      messages. */
  lemma {:induction false} RunKeys(db: Db, cfg: Config, selfId: string, evs: seq<Event>, i: nat)
    requires i <= |evs|
    ensures DbAt(db, cfg, selfId, evs, i).claims.Keys == db.claims.Keys + ClaimedIn(evs, i)
    ensures DbAt(db, cfg, selfId, evs, i).sources.Keys == db.sources.Keys + RecordedIn(cfg, selfId, evs, i)
  {
    if i > 0 {
      RunKeys(db, cfg, selfId, evs, i - 1);
      var a := DbAt(db, cfg, selfId, evs, i - 1);
      StepKeys(a, cfg, selfId, evs[i - 1]);
      var b := DbAt(db, cfg, selfId, evs, i);
      UnionStep(a.claims.Keys, b.claims.Keys, db.claims.Keys, ClaimedIn(evs, i - 1), ClaimedMessages(evs[i - 1]));
      UnionStep(a.sources.Keys, b.sources.Keys, db.sources.Keys, RecordedIn(cfg, selfId, evs, i - 1),
        RecordedSources(cfg, selfId, evs[i - 1]));
    }
  }

  /** Adding one step's keys to the keys added so far. */
  lemma UnionStep<T>(a: set<T>, b: set<T>, start: set<T>, earlier: set<T>, added: set<T>)
    requires a == start + earlier && b == a + added
    ensures b == start + (earlier + added)
  {
  }

  /** Message `m` has a claim row before event `i` exactly when it had one at
      the start or some earlier event clicked one of its claim buttons. */
  lemma ClaimedBefore(db: Db, cfg: Config, selfId: string, evs: seq<Event>, m: string, i: nat)
    requires i <= |evs|
    ensures m in DbAt(db, cfg, selfId, evs, i).claims <==> m in db.claims || exists j :: 0 <= j < i && ClaimsOn(evs[j], m)
  {
    RunKeys(db, cfg, selfId, evs, i);
    ClaimedInMembers(evs, m, i);
  }

  /** First click wins: a click on a claim button of message `m` wins the
      claim exactly when `m` had no claim row at the start and no earlier
      event clicked a claim button of `m`. */
  lemma FirstClickWins(db: Db, cfg: Config, selfId: string, evs: seq<Event>, m: string, i: nat)
    requires i < |evs| && ClaimsOn(evs[i], m)
    ensures IsWin(ReplyAt(db, cfg, selfId, evs, i)) <==>
      m !in db.claims && forall j :: 0 <= j < i ==> !ClaimsOn(evs[j], m)
  {
    ClaimedBefore(db, cfg, selfId, evs, m, i);
  }

  /** However many users click the buttons of one public message, at most one
      click wins it. */
  lemma AtMostOneWinner(db: Db, cfg: Config, selfId: string, evs: seq<Event>, m: string, i: nat, j: nat)
    requires i < j < |evs| && ClaimsOn(evs[i], m) && ClaimsOn(evs[j], m)
    ensures !(IsWin(ReplyAt(db, cfg, selfId, evs, i)) && IsWin(ReplyAt(db, cfg, selfId, evs, j)))
  {
    FirstClickWins(db, cfg, selfId, evs, m, j);
  }

  /** A won claim stays in the table with its drop and user for the rest of
      the run, whatever happens to the drop or the ticket. */
  lemma WonClaimPersists(db: Db, cfg: Config, selfId: string, evs: seq<Event>, m: string, i: nat, k: nat)
    requires i < k <= |evs| && ClaimsOn(evs[i], m)
    requires IsWin(ReplyAt(db, cfg, selfId, evs, i))
    ensures var after := DbAt(db, cfg, selfId, evs, k);
      && m in after.claims
      && after.claims[m].dropId == ClaimDropId(evs[i].customId).value
      && after.claims[m].userId == evs[i].user.id
  {
    WinRecorded(db, cfg, selfId, evs, m, i);
    RunGrows(db, cfg, selfId, evs, i + 1, k);
  }

  /** Right after a winning click, its message holds the winner's row. */
  lemma WinRecorded(db: Db, cfg: Config, selfId: string, evs: seq<Event>, m: string, i: nat)
    requires i < |evs| && ClaimsOn(evs[i], m)
    requires IsWin(ReplyAt(db, cfg, selfId, evs, i))
    ensures var after := DbAt(db, cfg, selfId, evs, i + 1);
      && m in after.claims
      && after.claims[m].dropId == ClaimDropId(evs[i].customId).value
      && after.claims[m].userId == evs[i].user.id
  {
    var ev := evs[i];
    var o := ClaimButton(DbAt(db, cfg, selfId, evs, i), ev.customId, ev.messageId, ev.user, ev.now, ev.ticket, ev.edited);
    assert DbAt(db, cfg, selfId, evs, i + 1) == o.db;
  }

  /** Source `s` is recorded before event `i` exactly when it was at the start
      or some earlier accepted message had id `s`. */
  lemma RecordedBefore(db: Db, cfg: Config, selfId: string, evs: seq<Event>, s: string, i: nat)
    requires i <= |evs|
    ensures s in DbAt(db, cfg, selfId, evs, i).sources <==>
        s in db.sources || exists j :: 0 <= j < i && RecordsSource(cfg, selfId, evs[j], s)
  {
    RunKeys(db, cfg, selfId, evs, i);
    RecordedInMembers(cfg, selfId, evs, s, i);
  }

  /** An event stores an ingested drop exactly when it is the first accepted
      delivery of a message not recorded at the start, and that delivery
      carries a cookies link. So a source message yields at most one drop, and
      one first seen without a cookies link never yields one. */
  lemma OnlyFirstDeliveryStoresDrop(db: Db, cfg: Config, selfId: string, evs: seq<Event>, i: nat)
    requires i < |evs|
    ensures StoresAutoDrop(ReplyAt(db, cfg, selfId, evs, i)) <==>
      && evs[i].MessageCreated?
      && Accepted(cfg, selfId, evs[i].msg)
      && evs[i].msg.id !in db.sources
      && (forall j :: 0 <= j < i ==> !RecordsSource(cfg, selfId, evs[j], evs[i].msg.id))
      && CookiesLink(evs[i].msg.embeds).Some?
  {
    if evs[i].MessageCreated? {
      RecordedBefore(db, cfg, selfId, evs, evs[i].msg.id, i);
    }
  }

  /** Two deliveries of the same source message never both store a drop. */
  lemma AtMostOneDropPerSource(db: Db, cfg: Config, selfId: string, evs: seq<Event>, i: nat, j: nat)
    requires i < j < |evs| && evs[i].MessageCreated? && evs[j].MessageCreated?
    requires evs[i].msg.id == evs[j].msg.id
    ensures !(StoresAutoDrop(ReplyAt(db, cfg, selfId, evs, i)) && StoresAutoDrop(ReplyAt(db, cfg, selfId, evs, j)))
  {
    OnlyFirstDeliveryStoresDrop(db, cfg, selfId, evs, i);
    OnlyFirstDeliveryStoresDrop(db, cfg, selfId, evs, j);
  }
}

=== FILE: urls.dfy ===
/**
  The two regular expressions the announcement parser applies, restated as
  explicit scans over the characters of a string:

  - `/https?:\/\/\S+/i` followed by `.replace(/[)>.,!?]+$/g, "")` (a bare URL
    with its trailing punctuation removed), and
  - `/\((https?:\/\/[^)]+)\)/i` (a markdown `(url)` and its capture group).

  `String.prototype.match` without the `g` flag reports the leftmost match, and
  both patterns can only match in one way once their start is fixed: `\S+` and
  `[^)]+` are greedy and nothing after them can make them give characters back,
  and the two spellings of the scheme differ at their fifth character.
 */
module Urls {
  import opened Wrappers
  import opened Text

  /** Position `i` holds the letter `c` in either ASCII case (the `i` flag
      folds ASCII letters only). */
  predicate LetterAt(s: string, i: nat, c: char) {
    i < |s| && LowerChar(s[i]) == c
  }

  predicate CharAt(s: string, i: nat, c: char) {
    i < |s| && s[i] == c
  }

  /** Length of the `https?:\/\/` match at `i`: 7 for `http://`, 8 for
      `https://`, 0 when neither occurs there. */
  function SchemeLength(s: string, i: nat): (n: nat)
    ensures n == 0 || n == 7 || n == 8
    ensures n > 0 ==> i + n <= |s|
  {
    if LetterAt(s, i, 'h') && LetterAt(s, i + 1, 't') && LetterAt(s, i + 2, 't') && LetterAt(s, i + 3, 'p') then
      var j := if LetterAt(s, i + 4, 's') then i + 5 else i + 4;
      if CharAt(s, j, ':') && CharAt(s, j + 1, '/') && CharAt(s, j + 2, '/') then j + 3 - i else 0
    else 0
  }

  /** `s` begins with `http://` or `https://` in any case: `/^https?:\/\//i`. */
  predicate StartsWithScheme(s: string) {
    SchemeLength(s, 0) > 0
  }

  /** The character class `[)>.,!?]`. */
  predicate IsTrailingPunctuation(c: char) {
    c == ')' || c == '>' || c == '.' || c == ',' || c == '!' || c == '?'
  }

  predicate IsCloseParen(c: char) {
    c == ')'
  }

  /** The first position at or after `j` whose character satisfies `stop`, or
      the length of `s` when there is none. */
  function RunEnd(s: string, j: nat, stop: char -> bool): (e: nat)
    requires j <= |s|
    ensures j <= e <= |s|
    ensures e < |s| ==> stop(s[e])
    ensures forall t :: j <= t < e ==> !stop(s[t])
    decreases |s| - j
  {
    if j == |s| || stop(s[j]) then j else RunEnd(s, j + 1, stop)
  }

  /** `/https?:\/\/\S+/i` matches at `i`: a scheme followed by at least one
      non-white-space character. */
  predicate BareUrlAt(s: string, i: nat) {
    var n := SchemeLength(s, i);
    n > 0 && i + n < |s| && !IsSpace(s[i + n])
  }

  /** `/\((https?:\/\/[^)]+)\)/i` matches at `i`: an opening parenthesis, a
      scheme, at least one character other than `)`, and a closing `)`. */
  predicate MarkdownUrlAt(s: string, i: nat) {
    && i < |s|
    && s[i] == '('
    && var n := SchemeLength(s, i + 1);
       && n > 0
       && var e := RunEnd(s, i + 1 + n, IsCloseParen);
          i + 1 + n < e < |s|
  }

  datatype Pattern = Bare | Markdown

  predicate MatchesAt(p: Pattern, s: string, i: nat) {
    match p
    case Bare => BareUrlAt(s, i)
    case Markdown => MarkdownUrlAt(s, i)
  }

  /** The leftmost position at or after `i` where `p` matches. */
  function Leftmost(p: Pattern, s: string, i: nat): (r: Option<nat>)
    requires i <= |s|
    ensures r.Some? ==> i <= r.value < |s| && MatchesAt(p, s, r.value)
    ensures r.Some? ==> forall j :: i <= j < r.value ==> !MatchesAt(p, s, j)
    ensures r.None? ==> forall j :: i <= j < |s| ==> !MatchesAt(p, s, j)
    decreases |s| - i
  {
    if i == |s| then None
    else if MatchesAt(p, s, i) then Some(i)
    else Leftmost(p, s, i + 1)
  }

  /** `.replace(/[)>.,!?]+$/g, "")`: removes the whole trailing run of
      `)`, `>`, `.`, `,`, `!` and `?`. */
  function StripTrailing(u: string): (r: string)
    ensures |r| <= |u| && r == u[..|r|]
    ensures |r| == 0 || !IsTrailingPunctuation(r[|r| - 1])
    ensures forall t :: |r| <= t < |u| ==> IsTrailingPunctuation(u[t])
  {
    if |u| > 0 && IsTrailingPunctuation(u[|u| - 1]) then StripTrailing(u[..|u| - 1]) else u
  }

  /** `u` is what `extractFirstUrl` returns for the match at `k`: `k` is the
      leftmost match, `u` is the text from `k` on, and between the end of `u`
      and the next white space (or the end of `text`) there is only trailing
      punctuation. */
  ghost predicate IsBareMatch(text: string, k: nat, u: string) {
    && k < |text|
    && BareUrlAt(text, k)
    && (forall j :: 0 <= j < k ==> !BareUrlAt(text, j))
    && OccursAt(text, u, k)
    && var e := RunEnd(text, k, IsSpace);
       && k + |u| <= e
       && forall t :: k + |u| <= t < e ==> IsTrailingPunctuation(text[t])
  }

  /** `u` is the capture group of the leftmost markdown match, at `k`. */
  ghost predicate IsMarkdownMatch(text: string, k: nat, u: string) {
    && k < |text|
    && MarkdownUrlAt(text, k)
    && (forall j :: 0 <= j < k ==> !MarkdownUrlAt(text, j))
    && OccursAt(text, u, k + 1)
    && k + 1 + |u| < |text|
    && text[k + 1 + |u|] == ')'
  }

  /** The characters of a scheme are neither white space nor trailing
      punctuation, so no scan for either stops inside one. */
  lemma SchemeCharacters(s: string, i: nat)
    requires SchemeLength(s, i) > 0
    ensures forall t :: i <= t < i + SchemeLength(s, i) ==>
      !IsSpace(s[t]) && !IsTrailingPunctuation(s[t]) && !IsCloseParen(s[t])
  {
  }

  /** A string that starts with the same scheme characters as position `i` of
      `s` has the same scheme length at its start. */
  lemma SchemeLengthOfCopy(s: string, i: nat, u: string)
    requires SchemeLength(s, i) > 0
    requires SchemeLength(s, i) <= |u| && u[..SchemeLength(s, i)] == s[i..i + SchemeLength(s, i)]
    ensures SchemeLength(u, 0) == SchemeLength(s, i)
  {
    var n := SchemeLength(s, i);
    forall t | 0 <= t < n ensures u[t] == s[i + t] {
      assert u[..n][t] == s[i..i + n][t];
    }
  }

  /** The text `extractFirstUrl` returns for a match at `k`. */
  function BareMatchText(text: string, k: nat): string
    requires k < |text|
  {
    StripTrailing(text[k..RunEnd(text, k, IsSpace)])
  }

  /** The capture group of a markdown match at `k`. */
  function MarkdownMatchText(text: string, k: nat): string
    requires MarkdownUrlAt(text, k)
  {
    text[k + 1..RunEnd(text, k + 1 + SchemeLength(text, k + 1), IsCloseParen)]
  }

  lemma BareMatchTextFacts(text: string, k: nat)
    requires k < |text| && BareUrlAt(text, k)
    requires forall j :: 0 <= j < k ==> !BareUrlAt(text, j)
    ensures IsBareMatch(text, k, BareMatchText(text, k))
    ensures StartsWithScheme(BareMatchText(text, k))
  {
    var n := SchemeLength(text, k);
    var e := RunEnd(text, k, IsSpace);
    SchemeCharacters(text, k);
    assert k + n < e;
    var w := text[k..e];
    var u := StripTrailing(w);
    assert w[n - 1] == text[k + n - 1];
    assert |u| >= n;
    assert u[..n] == w[..n] == text[k..k + n];
    SchemeLengthOfCopy(text, k, u);
    assert u == text[k..k + |u|];
    forall t | k + |u| <= t < e
      ensures IsTrailingPunctuation(text[t])
    {
      assert w[t - k] == text[t];
    }
  }

  lemma MarkdownMatchTextFacts(text: string, k: nat)
    requires k < |text| && MarkdownUrlAt(text, k)
    requires forall j :: 0 <= j < k ==> !MarkdownUrlAt(text, j)
    ensures IsMarkdownMatch(text, k, MarkdownMatchText(text, k))
    ensures StartsWithScheme(MarkdownMatchText(text, k))
    ensures |MarkdownMatchText(text, k)| > SchemeLength(MarkdownMatchText(text, k), 0)
    ensures ')' !in MarkdownMatchText(text, k)
  {
    var u := MarkdownMatchText(text, k);
    assert u == text[k + 1..k + 1 + |u|];
    MarkdownCaptureShape(text, k);
  }

  /** The capture starts with the scheme found after the `(`, runs past it,
      and holds no `)`. */
  lemma MarkdownCaptureShape(text: string, k: nat)
    requires MarkdownUrlAt(text, k)
    ensures StartsWithScheme(MarkdownMatchText(text, k))
    ensures |MarkdownMatchText(text, k)| > SchemeLength(MarkdownMatchText(text, k), 0)
    ensures ')' !in MarkdownMatchText(text, k)
  {
    var n := SchemeLength(text, k + 1);
    var e := RunEnd(text, k + 1 + n, IsCloseParen);
    SchemeCharacters(text, k + 1);
    var u := text[k + 1..e];
    assert u[..n] == text[k + 1..k + 1 + n];
    SchemeLengthOfCopy(text, k + 1, u);
    assert forall t :: 0 <= t < |u| ==> u[t] == text[k + 1 + t];
  }

  /** `extractFirstUrl`: `null` for an empty text or one without a bare URL;
      otherwise the leftmost bare URL, which starts with its scheme, holds no
      white space and no longer ends in trailing punctuation. */
  function FirstUrl(text: string): (r: Option<string>)
    ensures r.None? <==> forall i :: 0 <= i < |text| ==> !BareUrlAt(text, i)
    ensures r.Some? ==> exists k :: IsBareMatch(text, k, r.value)
    ensures r.Some? ==> StartsWithScheme(r.value)
    ensures r.Some? ==> forall t :: 0 <= t < |r.value| ==> !IsSpace(r.value[t])
    ensures r.Some? ==> !IsTrailingPunctuation(r.value[|r.value| - 1])
  {
    if |text| == 0 then None
    else
      match Leftmost(Bare, text, 0)
      case None =>
        assert forall i :: 0 <= i < |text| ==> MatchesAt(Bare, text, i) == BareUrlAt(text, i);
        None
      case Some(k) =>
        assert forall j :: 0 <= j < k ==> MatchesAt(Bare, text, j) == BareUrlAt(text, j);
        BareMatchTextFacts(text, k);
        Some(BareMatchText(text, k))
  }

  /** The capture group of the leftmost `(http…)` in `text`, or `null`; the
      capture starts with its scheme, has at least one more character, and
      contains no `)`. */
  function MarkdownUrl(text: string): (r: Option<string>)
    ensures r.None? <==> forall i :: 0 <= i < |text| ==> !MarkdownUrlAt(text, i)
    ensures r.Some? ==> exists k :: IsMarkdownMatch(text, k, r.value)
    ensures r.Some? ==> StartsWithScheme(r.value)
    ensures r.Some? ==> |r.value| > SchemeLength(r.value, 0)
    ensures r.Some? ==> ')' !in r.value
  {
    match Leftmost(Markdown, text, 0)
    case None =>
      assert forall i :: 0 <= i < |text| ==> MatchesAt(Markdown, text, i) == MarkdownUrlAt(text, i);
      None
    case Some(k) =>
      assert forall j :: 0 <= j < k ==> MatchesAt(Markdown, text, j) == MarkdownUrlAt(text, j);
      MarkdownMatchTextFacts(text, k);
      Some(MarkdownMatchText(text, k))
  }

  /** The link a text mentioning cookies yields (index.js:111-116 and
      123-127): the markdown capture when there is one, else the first bare
      URL. */
  function LinkIn(text: string): (r: Option<string>)
    ensures r.None? <==>
      forall i :: 0 <= i < |text| ==> !MarkdownUrlAt(text, i) && !BareUrlAt(text, i)
    ensures r.Some? ==> StartsWithScheme(r.value)
    ensures (exists i :: 0 <= i < |text| && MarkdownUrlAt(text, i)) ==>
      r.Some? && exists k :: IsMarkdownMatch(text, k, r.value)
    ensures (forall i :: 0 <= i < |text| ==> !MarkdownUrlAt(text, i)) ==> r == FirstUrl(text)
  {
    match MarkdownUrl(text)
    case Some(u) => Some(u)
    case None => FirstUrl(text)
  }
}

=== FILE: vetro.dfy ===
/**
  Parsing of an announcement posted by the upstream bot (index.js:96-165): the
  private "cookies" link, and the public details that may be shown next to the
  claim button.

  A message's embeds are a sequence; the parser reads only the first one. Text
  attributes the platform may leave out (a field's name or value, the title,
  the description, the thumbnail URL) are the empty string when absent: the
  source only ever tests them for truthiness, which treats both alike.
 */
module Vetro {
  import opened Wrappers
  import opened Text
  import opened Urls

  /** One name/value field of an embed. */
  datatype Field = Field(name: string, value: string)

  /** The parts of an embed the parser reads. */
  datatype Embed = Embed(title: string, description: string, thumbnailUrl: string, fields: seq<Field>)

  // ---------------------------------------------------------------------
  // The cookies link (extractCookiesLinkFromVetro)
  // ---------------------------------------------------------------------

  const Marker := "cookies"

  /** The lower-cased text contains the marker "cookies". */
  predicate MentionsCookies(s: string) {
    Contains(Lower(s), Marker)
  }

  /** A field the scan tries: its name or its value mentions cookies. */
  predicate IsTried(f: Field) {
    MentionsCookies(f.name) || MentionsCookies(f.value)
  }

  /** A field that ends the scan: it is tried and its value holds a link. */
  predicate Yields(f: Field) {
    IsTried(f) && LinkIn(f.value).Some?
  }

  /** The description is tried (it mentions cookies) and holds a link. */
  predicate DescriptionYields(description: string) {
    MentionsCookies(description) && LinkIn(description).Some?
  }

  /** `k` is the first field that yields a link. */
  ghost predicate FirstYielding(fields: seq<Field>, k: nat) {
    k < |fields| && Yields(fields[k]) && forall j :: 0 <= j < k ==> !Yields(fields[j])
  }

  /** The first position from `i` on whose element satisfies `p`. */
  function FirstSatisfying<T>(xs: seq<T>, p: T -> bool, i: nat): (r: Option<nat>)
    requires i <= |xs|
    ensures r.Some? ==> i <= r.value < |xs| && p(xs[r.value])
    ensures r.Some? ==> forall j :: i <= j < r.value ==> !p(xs[j])
    ensures r.None? ==> forall j :: i <= j < |xs| ==> !p(xs[j])
    decreases |xs| - i
  {
    if i == |xs| then None
    else if p(xs[i]) then Some(i)
    else FirstSatisfying(xs, p, i + 1)
  }

  /** The `for (const f of e.fields)` loop: the first field from position `i`
      on that yields a link. */
  function FirstYieldingFrom(fields: seq<Field>, i: nat): (r: Option<nat>)
    requires i <= |fields|
    ensures r.Some? ==> i <= r.value < |fields| && Yields(fields[r.value])
    ensures r.Some? ==> forall j :: i <= j < r.value ==> !Yields(fields[j])
    ensures r.None? ==> forall j :: i <= j < |fields| ==> !Yields(fields[j])
  {
    FirstSatisfying(fields, Yields, i)
  }

  /** Only one field is the first that yields. */
  lemma FirstYieldingIsUnique(fields: seq<Field>, k: nat)
    requires k < |fields| && Yields(fields[k]) && forall j :: 0 <= j < k ==> !Yields(fields[j])
    ensures FirstYielding(fields, k)
    ensures forall j: nat :: FirstYielding(fields, j) ==> j == k
  {
  }

  /** `extractCookiesLinkFromVetro`: no first embed gives `null`; otherwise the
      link of the first field that mentions cookies and holds a link (a
      markdown `(url)` before a bare URL), and only when no field yields one,
      the link of the description if it mentions cookies. */
  function CookiesLink(embeds: seq<Embed>): (r: Option<string>)
    ensures |embeds| == 0 ==> r.None?
    ensures |embeds| > 0 ==> var e := embeds[0];
      r.None? <==>
        (forall k :: 0 <= k < |e.fields| ==> !Yields(e.fields[k])) && !DescriptionYields(e.description)
    ensures |embeds| > 0 ==> var e := embeds[0];
      forall k: nat :: FirstYielding(e.fields, k) ==> r == LinkIn(e.fields[k].value)
    ensures |embeds| > 0 ==> var e := embeds[0];
      (forall k :: 0 <= k < |e.fields| ==> !Yields(e.fields[k])) && DescriptionYields(e.description) ==>
        r == LinkIn(e.description)
    ensures r.Some? ==> StartsWithScheme(r.value)
  {
    if |embeds| == 0 then None
    else
      var e := embeds[0];
      match FirstYieldingFrom(e.fields, 0)
      case Some(k) =>
        FirstYieldingIsUnique(e.fields, k);
        LinkIn(e.fields[k].value)
      case None =>
        if MentionsCookies(e.description) then LinkIn(e.description) else None
  }

  /** A field that mentions cookies but holds no link does not stop the scan:
      the result is the one for the same embed without that field. */
  lemma TriedFieldWithoutLinkIsSkipped(e: Embed, f: Field, rest: seq<Embed>)
    requires IsTried(f) && LinkIn(f.value).None?
    ensures CookiesLink([e.(fields := [f] + e.fields)] + rest) == CookiesLink([e] + rest)
  {
    var fs := [f] + e.fields;
    assert fs[1..] == e.fields;
    assert forall k :: 0 <= k < |e.fields| ==> fs[k + 1] == e.fields[k];
    if k: nat :| FirstYielding(e.fields, k) {
      assert FirstYielding(fs, k + 1);
    }
  }

  /** A link in a field always wins over one in the description, however the
      two are placed in the embed. */
  lemma FieldLinkBeatsDescription(e: Embed, k: nat)
    requires k < |e.fields| && Yields(e.fields[k])
    ensures CookiesLink([e]).Some?
    ensures exists j: nat :: j <= k && FirstYielding(e.fields, j) && CookiesLink([e]) == LinkIn(e.fields[j].value)
  {
    var j := FirstYieldingFrom(e.fields, 0).value;
    assert FirstYielding(e.fields, j);
  }

  // ---------------------------------------------------------------------
  // The public details (buildDropDetailsFromVetro)
  // ---------------------------------------------------------------------

  const DefaultTitle := "🎁 Nouveau drop"
  const DetailsDescription := "Clique **Claim**. Le premier qui clique reçoit le lien dans un **ticket**."

  /** The four details shown in public, declared in display order. */
  datatype DetailKey = Event | Price | Quantity | Ticket {

    /** The field name the detail is looked up by and shown under. */
    function Name(): string {
      match this
      case Event => "Event"
      case Price => "Price"
      case Quantity => "Quantity"
      case Ticket => "Ticket"
    }

    /** The position of the detail in display order. */
    function Rank(): nat {
      match this
      case Event => 0
      case Price => 1
      case Quantity => 2
      case Ticket => 3
    }
  }

  /** The details in display order. */
  const DetailKeys: seq<DetailKey> := [Event, Price, Quantity, Ticket]

  /** One public field; its name is `key.Name()`. */
  datatype PublicField = PublicField(key: DetailKey, value: string, inline: bool) {
    function Name(): string {
      key.Name()
    }
  }

  datatype DropDetails = DropDetails(
    title: string,
    description: string,
    thumbnail: Option<string>,
    fields: seq<PublicField>)

  /** The field's name equals `key` with ASCII case ignored. */
  predicate NameIs(f: Field, key: string) {
    Lower(f.name) == Lower(key)
  }

  /** `k` is the first field named `key`. */
  ghost predicate FirstNamed(fields: seq<Field>, key: string, k: nat) {
    k < |fields| && NameIs(fields[k], key) && forall j :: 0 <= j < k ==> !NameIs(fields[j], key)
  }

  /** The first field from position `i` on named `key`. */
  function FirstNamedFrom(fields: seq<Field>, key: string, i: nat): (r: Option<nat>)
    requires i <= |fields|
    ensures r.Some? ==> i <= r.value < |fields| && NameIs(fields[r.value], key)
    ensures r.Some? ==> forall j :: i <= j < r.value ==> !NameIs(fields[j], key)
    ensures r.None? ==> forall j :: i <= j < |fields| ==> !NameIs(fields[j], key)
  {
    FirstSatisfying(fields, f => NameIs(f, key), i)
  }

  /** The `get` helper: the value of the first field named `key`, or `null`
      when no field has that name or that first field's value is empty. */
  function Lookup(fields: seq<Field>, key: string): (r: Option<string>)
    ensures r.Some? <==> exists k: nat :: FirstNamed(fields, key, k) && fields[k].value != ""
    ensures forall k: nat :: FirstNamed(fields, key, k) ==>
      r == if fields[k].value == "" then None else Some(fields[k].value)
  {
    match FirstNamedFrom(fields, key, 0)
    case None => None
    case Some(k) =>
      assert FirstNamed(fields, key, k);
      if fields[k].value == "" then None else Some(fields[k].value)
  }

  /** The details a list of public fields shows, in order. */
  function KeysOf(ps: seq<PublicField>): (keys: seq<DetailKey>)
    ensures |keys| == |ps|
    ensures forall i :: 0 <= i < |ps| ==> keys[i] == ps[i].key
  {
    if ps == [] then [] else [ps[0].key] + KeysOf(ps[1..])
  }

  /** Every detail in `ps` comes at position `k` of `DetailKeys` or later. */
  ghost predicate RanksFrom(ps: seq<PublicField>, k: nat) {
    forall i :: 0 <= i < |ps| ==> k <= ps[i].key.Rank()
  }

  /** The details appear in display order, each at most once. */
  ghost predicate InDisplayOrder(ps: seq<PublicField>) {
    forall i, j :: 0 <= i < j < |ps| ==> ps[i].key.Rank() < ps[j].key.Rank()
  }

  /** Each public field carries the value `Lookup` finds for its name, and is
      inline exactly when it is the price or the quantity. */
  ghost predicate CopiedFrom(fields: seq<Field>, ps: seq<PublicField>) {
    forall i :: 0 <= i < |ps| ==>
      && (ps[i].inline <==> ps[i].key == Price || ps[i].key == Quantity)
      && Lookup(fields, ps[i].Name()) == Some(ps[i].value)
  }

  /** A detail from position `k` on is shown exactly when `Lookup` finds a
      value for it. */
  ghost predicate CoversFrom(fields: seq<Field>, ps: seq<PublicField>, k: nat) {
    forall n :: k <= n < 4 ==> (Lookup(fields, DetailKeys[n].Name()).Some? <==> DetailKeys[n] in KeysOf(ps))
  }

  /** The field for detail `k` in front of the fields for later details. */
  function Prepend(k: nat, v: string, rest: seq<PublicField>): (ps: seq<PublicField>)
    requires k < 4
    ensures |ps| == |rest| + 1 && ps[0].key == DetailKeys[k] && ps[0].value == v && ps[1..] == rest
  {
    var key := DetailKeys[k];
    [PublicField(key, v, key == Price || key == Quantity)] + rest
  }

  /** Putting the field for detail `k` in front of the fields for the later
      details keeps all four properties. */
  lemma PrependDetail(fields: seq<Field>, k: nat, v: string, rest: seq<PublicField>)
    requires k < 4 && Lookup(fields, DetailKeys[k].Name()) == Some(v)
    requires RanksFrom(rest, k + 1) && InDisplayOrder(rest) && CopiedFrom(fields, rest) && CoversFrom(fields, rest, k + 1)
    ensures var ps := Prepend(k, v, rest);
      RanksFrom(ps, k) && InDisplayOrder(ps) && CopiedFrom(fields, ps) && CoversFrom(fields, ps, k)
  {
    var ps := Prepend(k, v, rest);
    assert DetailKeys[k].Rank() == k;
    assert forall i :: 0 < i < |ps| ==> ps[i] == rest[i - 1];
    PrependKeepsOrder(k, v, rest);
    PrependKeepsCopies(fields, k, v, rest);
    PrependKeepsCover(fields, k, v, rest);
  }

  /** Leaving out detail `k`, which `Lookup` does not find, keeps the
      fields for the later details valid from `k` on. */
  lemma SkipDetail(fields: seq<Field>, k: nat, rest: seq<PublicField>)
    requires k < 4 && Lookup(fields, DetailKeys[k].Name()).None?
    requires RanksFrom(rest, k + 1) && CoversFrom(fields, rest, k + 1)
    ensures RanksFrom(rest, k) && CoversFrom(fields, rest, k)
  {
    LaterKeysOnly(rest, k);
  }

  /** Fields for details after position `k` hold no field for detail `k`. */
  lemma {:induction false} LaterKeysOnly(ps: seq<PublicField>, k: nat)
    requires k < 4 && RanksFrom(ps, k + 1)
    ensures DetailKeys[k] !in KeysOf(ps)
  {
    if ps != [] {
      assert DetailKeys[k].Rank() == k;
      assert RanksFrom(ps[1..], k + 1) by {
        forall i | 0 <= i < |ps[1..]| ensures k + 1 <= ps[1..][i].key.Rank() {
          assert ps[1..][i] == ps[i + 1];
        }
      }
      LaterKeysOnly(ps[1..], k);
    }
  }

  lemma PrependKeepsOrder(k: nat, v: string, rest: seq<PublicField>)
    requires k < 4 && RanksFrom(rest, k + 1) && InDisplayOrder(rest)
    ensures RanksFrom(Prepend(k, v, rest), k) && InDisplayOrder(Prepend(k, v, rest))
  {
    var ps := Prepend(k, v, rest);
    assert DetailKeys[k].Rank() == k;
    assert forall i :: 0 < i < |ps| ==> ps[i] == rest[i - 1];
  }

  lemma PrependKeepsCopies(fields: seq<Field>, k: nat, v: string, rest: seq<PublicField>)
    requires k < 4 && Lookup(fields, DetailKeys[k].Name()) == Some(v) && CopiedFrom(fields, rest)
    ensures CopiedFrom(fields, Prepend(k, v, rest))
  {
    var ps := Prepend(k, v, rest);
    assert forall i :: 0 < i < |ps| ==> ps[i] == rest[i - 1];
  }

  lemma PrependKeepsCover(fields: seq<Field>, k: nat, v: string, rest: seq<PublicField>)
    requires k < 4 && Lookup(fields, DetailKeys[k].Name()) == Some(v) && CoversFrom(fields, rest, k + 1)
    ensures CoversFrom(fields, Prepend(k, v, rest), k)
  {
    var ps := Prepend(k, v, rest);
    assert KeysOf(ps) == [DetailKeys[k]] + KeysOf(rest);
  }

  /** The public fields for the details from position `k` of `DetailKeys` on. */
  function PublicFieldsFrom(fields: seq<Field>, k: nat): (ps: seq<PublicField>)
    requires k <= 4
    ensures RanksFrom(ps, k) && InDisplayOrder(ps) && CopiedFrom(fields, ps) && CoversFrom(fields, ps, k)
    decreases 4 - k
  {
    if k == 4 then []
    else
      var rest := PublicFieldsFrom(fields, k + 1);
      match Lookup(fields, DetailKeys[k].Name())
      case None =>
        SkipDetail(fields, k, rest);
        rest
      case Some(v) =>
        PrependDetail(fields, k, v, rest);
        Prepend(k, v, rest)
  }

  lemma CoversEveryDetail(fields: seq<Field>, ps: seq<PublicField>)
    requires CoversFrom(fields, ps, 0)
    ensures forall key: DetailKey :: Lookup(fields, key.Name()).Some? <==> key in KeysOf(ps)
  {
    forall key: DetailKey
      ensures Lookup(fields, key.Name()).Some? <==> key in KeysOf(ps)
    {
      assert DetailKeys[key.Rank()] == key;
    }
  }

  /** `buildDropDetailsFromVetro`: the public fields are Event, Price,
      Quantity and Ticket only, in that order, each at most once, each present
      exactly when the first embed field with that name (ASCII case ignored)
      has a non-empty value, which is then copied; Price and Quantity are
      inline, Event and Ticket are not; the title falls back to
      `DefaultTitle` and the thumbnail to `null`. */
  function BuildDropDetails(embeds: seq<Embed>): (d: DropDetails)
    ensures var fs := if |embeds| == 0 then [] else embeds[0].fields;
      InDisplayOrder(d.fields) && CopiedFrom(fs, d.fields) &&
      forall key: DetailKey :: Lookup(fs, key.Name()).Some? <==> key in KeysOf(d.fields)
    ensures d.title == if |embeds| > 0 && embeds[0].title != "" then embeds[0].title else DefaultTitle
    ensures d.thumbnail == if |embeds| > 0 && embeds[0].thumbnailUrl != "" then Some(embeds[0].thumbnailUrl) else None
    ensures d.description == DetailsDescription
  {
    var fs := if |embeds| == 0 then [] else embeds[0].fields;
    var ps := PublicFieldsFrom(fs, 0);
    CoversEveryDetail(fs, ps);
    DropDetails(
      if |embeds| > 0 && embeds[0].title != "" then embeds[0].title else DefaultTitle,
      DetailsDescription,
      if |embeds| > 0 && embeds[0].thumbnailUrl != "" then Some(embeds[0].thumbnailUrl) else None,
      ps)
  }

  /** Every public value is the whole value of the first embed field named
      after its detail, so the cookies link reaches the public details only
      through such a field: a text that no Event, Price, Quantity or Ticket
      field value contains is never shown in public. */
  lemma PublicValuesComeFromPublicFields(e: Embed, u: string)
    requires forall k, key: DetailKey :: 0 <= k < |e.fields| && NameIs(e.fields[k], key.Name()) ==>
      !Contains(e.fields[k].value, u)
    ensures forall i :: 0 <= i < |BuildDropDetails([e]).fields| ==>
      !Contains(BuildDropDetails([e]).fields[i].value, u)
  {
    var d := BuildDropDetails([e]);
    forall i | 0 <= i < |d.fields|
      ensures !Contains(d.fields[i].value, u)
    {
      var key := d.fields[i].key;
      assert Lookup(e.fields, key.Name()) == Some(d.fields[i].value);
      var k: nat :| FirstNamed(e.fields, key.Name(), k) && e.fields[k].value != "";
    }
  }

  /** A Price value that mentions cookies and holds a bare link. */
  const LeakingPrice := "cookies http://a"

  /** No position before the link of `LeakingPrice` starts a scheme. */
  lemma LeakingPriceSchemeFree(j: nat)
    requires j < 8
    ensures !BareUrlAt(LeakingPrice, j)
  {
    assert LeakingPrice[j] != 'h' && LeakingPrice[j] != 'H';
  }

  /** `LeakingPrice` has no markdown link: it holds no `(`. */
  lemma LeakingPriceHasNoMarkdown()
    ensures forall i :: 0 <= i < |LeakingPrice| ==> !MarkdownUrlAt(LeakingPrice, i)
  {
    forall i | 0 <= i < |LeakingPrice| ensures LeakingPrice[i] != '(' {
    }
  }

  /** The bare URL of `LeakingPrice` starts at 8 and runs to the end. */
  lemma LeakingPriceBareUrl()
    ensures BareUrlAt(LeakingPrice, 8)
    ensures RunEnd(LeakingPrice, 8, IsSpace) == |LeakingPrice|
    ensures !IsTrailingPunctuation(LeakingPrice[|LeakingPrice| - 1])
  {
    var v := LeakingPrice;
    assert forall t :: 8 <= t < |v| ==> !IsSpace(v[t]);
  }

  /** The link `LeakingPrice` yields is its bare URL "http://a". */
  lemma LeakingPriceLink()
    ensures LinkIn(LeakingPrice) == Some("http://a")
  {
    LeakingPriceHasNoMarkdown();
    LeakingPriceBareUrl();
    var u := FirstUrl(LeakingPrice).value;
    var k :| IsBareMatch(LeakingPrice, k, u);
    LeakingPriceMatch(k, u);
  }

  /** The only bare match of `LeakingPrice` that ends in no trailing
      punctuation is "http://a" at 8. */
  lemma LeakingPriceMatch(k: nat, u: string)
    requires IsBareMatch(LeakingPrice, k, u) && |u| > 0 && !IsTrailingPunctuation(u[|u| - 1])
    ensures u == "http://a"
  {
    var v := LeakingPrice;
    LeakingPriceBareUrl();
    assert k == 8 by {
      if k < 8 { LeakingPriceSchemeFree(k); }
    }
    assert |u| == 8;
    assert u == v[8..];
  }

  /** The private link is not kept out of the public details in every case:
      a Price field whose value mentions cookies and holds a link is both
      where the link is extracted from and a field copied to the public
      announcement. */
  lemma CookiesLinkCanBePublic()
    ensures var e := Embed("", "", "", [Field("Price", LeakingPrice)]);
      && CookiesLink([e]) == Some("http://a")
      && BuildDropDetails([e]).fields == [PublicField(Price, LeakingPrice, true)]
  {
    var e := Embed("", "", "", [Field("Price", LeakingPrice)]);
    LeakingPriceIsExtracted(e);
    LeakingPriceIsShown(e);
  }

  lemma LeakingPriceIsExtracted(e: Embed)
    requires e.fields == [Field("Price", LeakingPrice)]
    ensures CookiesLink([e]) == Some("http://a")
  {
    assert OccursAt(Lower(LeakingPrice), Marker, 0);
    LeakingPriceLink();
    assert FirstYielding(e.fields, 0);
  }

  lemma LeakingPriceIsShown(e: Embed)
    requires e.fields == [Field("Price", LeakingPrice)]
    ensures BuildDropDetails([e]).fields == [PublicField(Price, LeakingPrice, true)]
  {
    var fs := e.fields;
    assert Lower("Price")[0] != Lower("Event")[0];
    assert Lookup(fs, Event.Name()) == None;
    assert Lookup(fs, Price.Name()) == Some(LeakingPrice) by {
      assert FirstNamed(fs, Price.Name(), 0);
    }
    assert Lookup(fs, Quantity.Name()) == None;
    assert Lookup(fs, Ticket.Name()) == None;
    assert PublicFieldsFrom(fs, 2) == [];
    assert PublicFieldsFrom(fs, 0) == PublicFieldsFrom(fs, 1) == Prepend(1, LeakingPrice, []);
  }
}

=== FILE: wrappers.dfy ===
/** The optional-value datatype the model uses for JavaScript's `null` results. */
module Wrappers {

  /** `None` stands for the source's `null`; `Some(v)` for a present value. */
  datatype Option<+T> = None | Some(value: T)
}
